=== FILE: README.md ===
# Flexible replay pool — a Dafny model

This project models `FlexibleReplayPool`, the fixed-capacity, multi-field
ring buffer that stores experience for off-policy reinforcement learning.
A pool has a capacity (`max_size`), a write pointer, a fill count (`size`),
an ordered registry of field names, a descriptor per field, and one
storage array of `capacity` rows per field.

The model is functional. A pool is the immutable datatype
`FlexiblePool.Pool<T>`, where `T` is an abstract record type. Every
operation is a pure function or a method over it:

- `flexible_pool.dfy` (module `FlexiblePool`): the state and its invariant
  `Valid`, which includes "while the pool has not wrapped, `pointer == size`".
  It also holds field registration (`add_fields`), pointer advance
  (`_advance`) and the multi-field wrap-around write
  (`add_samples` / `add_sample`). A write fills every registered field
  first. Only after that does it reject unknown keyword fields, and a
  rejected write leaves pointer and size where they were.
- `sampling.dfy` (module `Sampling`): reads. It covers `random_indices`
  (the random draw is a nondeterministic choice), `random_batch`,
  `last_n_batch` and `batch_by_indices`. The latter's bounds check is
  modelled exactly as written, next to the per-index check the code
  evidently intends (see Findings).
- `snapshot_codec.dfy` (module `SnapshotCodec`): `__getstate__` and
  `__setstate__` as `Export` and `Import` over a `Snapshot` record.
  Export cuts every field to its first `size` rows while the pool has not
  wrapped. Import pads each field back with zero records, once per
  occurrence of its name in the registry.
- `ring_arith.dfy` (module `RingArith`): facts about `(base + j) mod capacity`
  that the other modules use.
- `results.dfy` (module `Results`): `Option` and `Result`, which model
  Python exceptions as values.

Python's `%` with a positive divisor never returns a negative value, and
neither does Dafny's `%` on `int`. The index arithmetic therefore carries
over unchanged, including for negative indices.

Two behaviours of the code are easy to misread, and the model keeps both
as written:

- A write does not validate its key set before touching storage.
  `flexible_replay_pool.py:44-51` writes every registered field first
  and only then asserts that no keyword is left.
  `FlexiblePool.AddSamples` therefore returns the partly written pool
  together with the error.
- `batch_by_indices` does not reject every index outside the filled
  region, although its error message says it does (see Findings).

## Model

| member | source | states |
|---|---|---|
| FlexiblePool.New | softlearning/replay_pools/flexible_replay_pool.py:7-18 | A new pool is valid and empty: pointer and size are 0, and the registry lists the given names in order. Each given field has exactly its given descriptor and `capacity` rows, all holding that descriptor's fill. |
| FlexiblePool.AddFields | softlearning/replay_pools/flexible_replay_pool.py:24-32 | Registration keeps the pool valid and leaves the counters alone. The registry becomes the old list followed by the new names in insertion order, so a re-added name appears twice. Each added field gets its descriptor and fresh storage of exactly `capacity` filled rows. Every other field keeps its storage and descriptor. |
| FlexiblePool.Advance | softlearning/replay_pools/flexible_replay_pool.py:34-36 | The pointer moves to `(pointer + count) mod capacity`, which lies in `[0, capacity)`. The size becomes `min(size + count, capacity)`, so it never decreases. The invariant, including `size < capacity ⇒ pointer == size`, is preserved. Registry and storage are untouched. |
| FlexiblePool.AdvanceTwice | softlearning/replay_pools/flexible_replay_pool.py:34-36 | Advancing by `a` and then by `b` is the same as advancing once by `a + b`. |
| FlexiblePool.AdvanceAges | softlearning/replay_pools/flexible_replay_pool.py:34-36 | An advance by `count` makes every position `count` writes older, modulo capacity. |
| FlexiblePool.WindowIsPrefix | softlearning/replay_pools/flexible_replay_pool.py:89-95 | While the pool has not wrapped, the positions holding the `size` most recent records are exactly `[0, size)`. This is why the export's `[:size]` cut keeps exactly the valid records. |
| FlexiblePool.WriteColumn | softlearning/replay_pools/flexible_replay_pool.py:42-49 | Writing `n` records from a source puts each of the last `capacity` steps' values at `(pointer + j) mod capacity`. Every position that no step reaches keeps its record. The length is unchanged. |
| FlexiblePool.WriteFields | softlearning/replay_pools/flexible_replay_pool.py:44-49 | The per-field write loop keeps the storage keys and row counts. When it finishes without error, the unconsumed keywords are exactly those not registered, and fields outside the loop are untouched. |
| FlexiblePool.WriteFieldsDistinct | softlearning/replay_pools/flexible_replay_pool.py:44-49 | With distinct names, the loop succeeds exactly when every field is either supplied with a usable shape or has a default. When it succeeds, each field is written from its supplied value, or else from its default. |
| FlexiblePool.AddSamples | softlearning/replay_pools/flexible_replay_pool.py:41-53 | A write keeps the pool valid. On success it is the written storage advanced by `n`, and the keyword names are all registered. On error, pointer and size stay as they were. |
| FlexiblePool.AddSample | softlearning/replay_pools/flexible_replay_pool.py:38-39 | A one-record write moves the pointer by one modulo capacity and grows the size by one until capacity. On error it moves neither. |
| FlexiblePool.AddSampleWrites | softlearning/replay_pools/flexible_replay_pool.py:38-53 | With distinct registered names and a default for every field not supplied, a one-record write succeeds if and only if every keyword names a registered field. Each field's record at the pointer becomes the supplied record, or else the field's default, and every other row is unchanged. |
| FlexiblePool.AddSamplesSucceedsIff | softlearning/replay_pools/flexible_replay_pool.py:41-53 | With distinct registered names, a write succeeds if and only if every registered field can be written and every keyword names a registered field. |
| FlexiblePool.AddSamplesWrites | softlearning/replay_pools/flexible_replay_pool.py:41-53 | With distinct registered names, when every field can be written, each one is written at `(pointer + j) mod capacity` from its value or its default, and its other rows are unchanged. An unknown keyword is then reported with exactly the unknown names, after the writes, without advancing. |
| FlexiblePool.ReAddedFieldTakesDefault | softlearning/replay_pools/flexible_replay_pool.py:44-49 | In a pool whose registry lists a field twice, a write that supplies that field succeeds. The field ends up as if written from its default, because the first visit pops the supplied value and the second writes the default over it. |
| Sampling.FilterNames | softlearning/replay_pools/flexible_replay_pool.py:77-82 | The gathered names are exactly the registered names that the optional filter accepts. |
| Sampling.SelectAppend | softlearning/replay_pools/flexible_replay_pool.py:79-82 | Filtering a concatenation is filtering each part, with the parts kept in order. Together with `Sampling.SelectOne`, this pins the filtered list down as the order-preserving subsequence of accepted names. |
| Sampling.SelectOne | softlearning/replay_pools/flexible_replay_pool.py:79-82 | A single name survives the filter exactly when the filter accepts it. |
| Sampling.BatchKeys | softlearning/replay_pools/flexible_replay_pool.py:84-87 | The batch dictionary's keys are the filtered names without repetition, each once. |
| Sampling.UniqueOfNoDup | softlearning/replay_pools/flexible_replay_pool.py:84-87 | Without repeated names, the dictionary's key order is the filtered list itself. |
| Sampling.UniqueKeepsFirstOrder | softlearning/replay_pools/flexible_replay_pool.py:84-87 | With repeated names, the dictionary's keys follow the first occurrence of each name. |
| Sampling.Gather | softlearning/replay_pools/flexible_replay_pool.py:84-87 | Reading fails if and only if some field is read and some index lies outside `[-capacity, capacity)`. Otherwise each gathered column has one row per index, taken from row `idx mod capacity`. |
| Sampling.BatchByIndices | softlearning/replay_pools/flexible_replay_pool.py:71-87 | The bounds check as written raises if and only if `size == 0` and some index is not a multiple of the capacity. The read succeeds if and only if that check passes and either no field is read or every index lies in `[-capacity, capacity)`; otherwise numpy's indexing raises. A batch that passes has one column for each filtered field and no other. Its keys are in first-occurrence order, and it reads row `idx mod capacity` of every field. |
| Sampling.BatchByIndicesChecked | softlearning/replay_pools/flexible_replay_pool.py:71-87 | Under the intended per-index check, the read succeeds if and only if every index reduced modulo capacity is below `size` and either no field is read or every index lies in `[-capacity, capacity)`. A successful batch has one column for each filtered field and no other, in first-occurrence order. Every row it returns comes from a position in the valid window. |
| Sampling.CheckedRejectsOutsideWindow | softlearning/replay_pools/flexible_replay_pool.py:71-75 | The intended check raises if and only if some index, reduced modulo capacity, lies outside the valid window. |
| Sampling.CollapsedCheckAdmitsUnwrittenRow | softlearning/replay_pools/flexible_replay_pool.py:72-75 | When `0 < size`, every index in `[size, capacity)` names an unwritten row. The check as written lets it through, and the intended check rejects it. |
| Sampling.ChecksAgreeOnFilledRows | softlearning/replay_pools/flexible_replay_pool.py:71-87 | On indices in `[0, size)` the two checks give the same result, and neither raises. |
| Sampling.RandomIndices | softlearning/replay_pools/flexible_replay_pool.py:55-57 | An empty pool yields no indices. Otherwise the result holds `batchSize` indices, each in `[0, size)`. |
| Sampling.RandomBatch | softlearning/replay_pools/flexible_replay_pool.py:59-62 | A random batch is the as-written read at indices drawn from `[0, size)`, and it never raises. It has `batchSize` rows per field, or none for an empty pool. Every row it returns is a record held at a valid position. |
| Sampling.LastNIndices | softlearning/replay_pools/flexible_replay_pool.py:65-67 | The last-`n` positions number `min(size, n)` and are consecutive modulo capacity. They end just before the pointer, and the `j`-th one was written `len - 1 - j` writes ago, so all of them lie in the valid window. |
| Sampling.LastNIndicesOfCounters | softlearning/replay_pools/flexible_replay_pool.py:65-67 | The last-`n` positions depend only on capacity, pointer and size. |
| Sampling.LastNBatch | softlearning/replay_pools/flexible_replay_pool.py:64-69 | A last-`n` batch never raises. It has one column for each filtered field and no other, and each column holds `min(size, n)` rows in write order. |
| Sampling.LastNBatchAsWritten | softlearning/replay_pools/flexible_replay_pool.py:64-75 | The last-`n` indices lie in `[0, size)`, so reading them through the check as written gives the same batch as reading them through the intended check. |
| Sampling.LastNAfterWrite | softlearning/replay_pools/flexible_replay_pool.py:41-69 | With distinct registered names, after a successful write of `n` records, the `m ≤ min(n, capacity)` most recent positions of each field hold the last `m` records of that write, taken from the supplied value or the default. |
| Sampling.LastNBatchAfterWrite | softlearning/replay_pools/flexible_replay_pool.py:41-69 | With distinct registered names, writing `n` rows and then asking for the last `m ≤ min(n, capacity)` returns the final `m` rows of the batch in order. This includes writes that wrapped several times. |
| SnapshotCodec.TruncateAll | softlearning/replay_pools/flexible_replay_pool.py:91-93 | The export loop cuts every listed field to its first `size` rows, leaves unlisted fields alone, and keeps the key set. |
| SnapshotCodec.Export | softlearning/replay_pools/flexible_replay_pool.py:89-95 | The exported state has the counters and registry verbatim. Each field is exactly its first `size` rows, which is all of them once the pool is full. |
| SnapshotCodec.PadAll | softlearning/replay_pools/flexible_replay_pool.py:98-105 | On success the import loop keeps the key set and appends `pad` zero records per occurrence of a field's name. |
| SnapshotCodec.PadAllSucceeds | softlearning/replay_pools/flexible_replay_pool.py:98-105 | The import loop succeeds if and only if every listed name has a descriptor and rows. |
| SnapshotCodec.PadAllNamesMissing | softlearning/replay_pools/flexible_replay_pool.py:100-105 | A failing import loop reports a listed name that lacks a descriptor or rows. |
| SnapshotCodec.Import | softlearning/replay_pools/flexible_replay_pool.py:97-107 | A restored pool has the state's counters and registry. Each field keeps its stored rows followed by zero records, `capacity - size` of them per occurrence of its name, and none when the state is full. |
| SnapshotCodec.ImportSucceeds | softlearning/replay_pools/flexible_replay_pool.py:97-107 | Import succeeds if and only if the state is full, or every registered name has rows and a descriptor. |
| SnapshotCodec.ImportNamesMissing | softlearning/replay_pools/flexible_replay_pool.py:98-102 | A failing import reports a registered name that lacks rows or a descriptor. |
| SnapshotCodec.ExportedImports | softlearning/replay_pools/flexible_replay_pool.py:89-107 | Every exported state imports without error. |
| SnapshotCodec.ImportedRows | softlearning/replay_pools/flexible_replay_pool.py:89-107 | Importing an exported state restores pointer, size, capacity, registry and descriptors, and rows `[0, size)` of every field. |
| SnapshotCodec.ImportedFull | softlearning/replay_pools/flexible_replay_pool.py:89-107 | A full pool's exported state imports back to exactly the same pool. |
| SnapshotCodec.RoundTrip | softlearning/replay_pools/flexible_replay_pool.py:89-107 | `Import(Export(p))` succeeds, restores counters, registry and rows `[0, size)`, and is `p` itself when `p` is full. |
| SnapshotCodec.ImportedLength | softlearning/replay_pools/flexible_replay_pool.py:98-105 | While the pool has not wrapped, a restored field has its `size` rows plus `capacity - size` zero records per occurrence of its name. |
| SnapshotCodec.RoundTripDistinct | softlearning/replay_pools/flexible_replay_pool.py:89-107 | With distinct names the restored pool is valid again. It agrees with the exported pool at every valid position, and its padded tail holds zero records. |
| SnapshotCodec.ReRegisteredFieldOverPadded | softlearning/replay_pools/flexible_replay_pool.py:98-105 | A field whose name was registered twice is padded twice. Its restored storage is longer than the capacity, and the restored pool breaks the storage-length invariant. |
| SnapshotCodec.RestoredPoolReadsAlike | softlearning/replay_pools/flexible_replay_pool.py:89-107 | With distinct names a restored pool answers every last-`n` read, and every read through the intended bounds check, as the exported pool did. |

## Left out

- Randomness: `np.random.randint` is a nondeterministic choice in `Sampling.RandomIndices`. Its distribution is not modelled.
- Field descriptors keep only the optional `default_value` and the record the initializer fills storage with. Shapes, dtypes and the injectable initializer are not modelled, because records are an abstract type.
- SnapshotCodec.Import: `np.zeros` padding is the parameter `zero`. Its dtype, which may differ from the field's own, is not modelled. The padding is `float64` (line 104 passes no dtype), and `np.concatenate` at lines 102-105 promotes the whole field, kept rows included, to the common dtype. A `bool`, integer or `float32` field therefore comes back as `float64` after a pool that had not wrapped is restored.
- SnapshotCodec.RoundTrip: the restored rows `[0, size)` equal the exported ones only up to that dtype promotion. An `int64` value whose magnitude exceeds 2^53 is rounded by the conversion to `float64` and is not preserved. The same holds for `SnapshotCodec.ImportedRows`, `SnapshotCodec.RoundTripDistinct` and `SnapshotCodec.RestoredPoolReadsAlike`. A full pool is not padded, so `SnapshotCodec.ImportedFull` is unaffected.
- SnapshotCodec.ImportedRows: restores rows only up to `float64` promotion, as stated under `SnapshotCodec.RoundTrip`.
- numpy broadcasting of supplied values is reduced to three cases: one record, a single row, or exactly `n` rows. Any other row count raises at that field.
- FlexiblePool.WriteColumn: when `n > capacity`, several write steps hit one position and numpy does not say which assignment wins. The model assumes the last one wins.
- FlexiblePool.New: requires a positive capacity. A pool with `max_size == 0` can be built in the source, where it behaves as follows. `random_batch` and `last_n_batch` draw empty index arrays (lines 56 and 65-67) and return empty batches. A write of at least one record to a pool with fields raises `IndexError` at line 49, because numpy's `% 0` gives index 0 into a zero-row array. A write that gets past line 51 raises `ZeroDivisionError` in `_advance`, at line 35. The `int(max_size)` conversion is not modelled either.
- FlexiblePool.AddSamples: takes `n: nat`. A negative `num_samples` writes nothing and then moves the pointer and size backwards in `_advance`; that case is not modelled.
- Sampling.LastNBatch: takes `n: nat`. A negative `last_n` gives an empty range in the source. The keyword arguments that `last_n_batch` and `random_batch` forward to `batch_by_indices` are not modelled; that method accepts none.
- Sampling.RandomIndices: takes `batchSize: nat`. The error numpy raises for a negative size is not modelled.
- The `size` property is the `size` field of the pool.
- The `ReplayPool` base class is not part of this model. Export and import are plain functions over a state record, not pickle's `__dict__` copy.
- The check at line 51 is a Python `assert`, which `python -O` strips. The model always performs it.
- The key order of the returned batch dictionary is recorded as `Batch.order`. It is the filtered registry with each repeated name kept once, at its first occurrence. The columns themselves form a map.
- The pool stores each field as an attribute of the pool object (`setattr` at line 31, `getattr` at line 49). A field named like a pool attribute therefore clashes with it: `size` raises, and `fields` or `_pointer` overwrites the pool's own state. The model keeps fields in a map of their own, so no such clash is modelled.
- FlexiblePool.AddSampleWrites: stated only for a registry without repeated names, for the same reason as `FlexiblePool.AddSamplesSucceedsIff`, and only when every field not supplied has a default. The failure of a write that leaves a field without a value is stated by `FlexiblePool.AddSamplesSucceedsIff`.
- FlexiblePool.AddSamplesSucceedsIff: stated only for a registry without repeated names. With a repeated name, a supplied value is popped at the first occurrence and the default is needed at the second; `FlexiblePool.ReAddedFieldTakesDefault` states that case for a registry `[f, f]`.
- FlexiblePool.AddSamplesWrites: stated only for a registry without repeated names. With a repeated name the supplied records are overwritten by the default, as `FlexiblePool.ReAddedFieldTakesDefault` states for a registry `[f, f]`.
- Sampling.LastNAfterWrite: stated only for a registry without repeated names. With a repeated name the recent rows hold the default, not the supplied records (see `FlexiblePool.ReAddedFieldTakesDefault`).
- Sampling.LastNBatchAfterWrite: stated only for a registry without repeated names, for the same reason as `Sampling.LastNAfterWrite`.
- Concurrency: none. Callers serialise access.

## Findings

| source | as written | input that shows it | evidently intended | confidence | as-written member | corrected member |
|---|---|---|---|---|---|---|
| softlearning/replay_pools/flexible_replay_pool.py:72 | `any(indices % max_size) > size` collapses the indices to one boolean and compares it with `size`. It raises only when `size == 0` and some index is not a multiple of the capacity. | A pool with capacity 4 and size 2 (pointer 2), read at index `[3]`: `any([3])` is `True`, and `True > 2` is false, so the unwritten row 3 is returned. The comparison `>` is also off by one: even per index it would let index `size` (here 2) through. | Raise when any index reduced modulo capacity lies outside the valid window (`>= size` while the pool has not wrapped). `Sampling.CheckedRejectsOutsideWindow` proves that the corrected read does exactly this, and the model's `random_batch` and `last_n_batch` read through it. | not executed | Sampling.CollapsedCheckAdmitsUnwrittenRow | Sampling.BatchByIndicesChecked |

=== FILE: flexible_pool.dfy ===
/**
 * The state of a flexible replay pool and its mutating operations:
 * field registration, pointer advance and multi-field wrap-around writes.
 * Records are an abstract type `T`; a field's storage is a sequence of
 * `capacity` records.
 */
module FlexiblePool {
  import opened Results
  import opened RingArith

  /** What the pool keeps of a field descriptor: its optional default value and the record its initializer fills new storage with. */
  datatype FieldSpec<T> = FieldSpec(default: Option<T>, fill: T)

  /** A value supplied for one field in a write: a batch of rows, or one record broadcast to every written position. */
  datatype Column<T> = Rows(rows: seq<T>) | Single(record: T)

  /** The exceptions the pool raises. */
  datatype Error =
    | UnknownField(names: set<string>)   // a write names fields that are not registered
    | MissingDefault(name: string)       // an omitted field has no default value
    | ShapeMismatch(name: string)        // supplied rows cannot be broadcast to the write
    | OutOfRange                         // the bounds check of a batch read fails
    | IndexOutOfBounds                   // an index falls outside the storage
    | MissingField(name: string)         // a snapshot lacks a registered field

  datatype Pool<T> = Pool(
    capacity: int,
    pointer: int,
    size: int,
    fieldNames: seq<string>,
    specs: map<string, FieldSpec<T>>,
    store: map<string, seq<T>>)

  /** The result of a write: the pool afterwards (possibly partly written) and the error raised, if any. */
  datatype WriteOutcome<T> = WriteOutcome(pool: Pool<T>, error: Option<Error>)

  function Names(s: seq<string>): set<string>
  {
    set x | x in s
  }

  predicate NoDup(s: seq<string>)
  {
    forall i, j :: 0 <= i < j < |s| ==> s[i] != s[j]
  }

  /** The pool's invariant: every registered field has storage of `capacity` rows, and the pointer and size stay in range. */
  predicate Valid<T>(p: Pool<T>)
  {
    && p.capacity > 0
    && 0 <= p.pointer < p.capacity
    && 0 <= p.size <= p.capacity
    && (p.size < p.capacity ==> p.pointer == p.size)
    && p.specs.Keys == Names(p.fieldNames)
    && p.store.Keys == Names(p.fieldNames)
    && (forall f :: f in p.store ==> |p.store[f]| == p.capacity)
  }

  /** How many writes ago position `i` was written: 0 for the most recent. */
  function Age<T>(p: Pool<T>, i: int): int
    requires p.capacity > 0
  {
    (p.pointer - 1 - i) % p.capacity
  }

  /** Position `i` holds one of the `size` most recently written records. */
  predicate InWindow<T>(p: Pool<T>, i: int)
    requires p.capacity > 0
  {
    0 <= i < p.capacity && Age(p, i) < p.size
  }

  /**
   * While the pool has not wrapped, the valid window is exactly the prefix
   * `[0, size)`; this is what makes truncating storage to `size` rows on
   * export keep precisely the valid records.
   */
  lemma WindowIsPrefix<T>(p: Pool<T>, i: int)
    requires Valid(p) && p.size < p.capacity && 0 <= i < p.capacity
    ensures InWindow(p, i) <==> i < p.size
  {
    var c := p.capacity;
    if i < p.size {
      ModSmall(p.size - 1 - i, c);
    } else {
      ModShift(p.size - 1 - i, 1, c);
      ModSmall(p.size - 1 - i + c, c);
    }
  }

  lemma FullPoolWindowIsEverything<T>(p: Pool<T>, i: int)
    requires Valid(p) && p.size == p.capacity && 0 <= i < p.capacity
    ensures InWindow(p, i)
  {
  }

  // ---------------------------------------------------------------- registry

  lemma NamesAppend(a: seq<string>, b: seq<string>)
    ensures Names(a + b) == Names(a) + Names(b)
  {
    forall x | x in Names(a + b) ensures x in Names(a) + Names(b) {
      var i :| 0 <= i < |a + b| && (a + b)[i] == x;
      if i < |a| { assert a[i] == x; } else { assert b[i - |a|] == x; }
    }
    forall x | x in Names(a) + Names(b) ensures x in Names(a + b) {
      if x in Names(a) {
        var i :| 0 <= i < |a| && a[i] == x;
        assert (a + b)[i] == x;
      } else {
        var i :| 0 <= i < |b| && b[i] == x;
        assert (a + b)[|a| + i] == x;
      }
    }
  }

  function Fill<T>(n: int, v: T): (s: seq<T>)
    requires n >= 0
    ensures |s| == n && forall i :: 0 <= i < n ==> s[i] == v
  {
    seq(n, _ => v)
  }

  predicate DistinctKeys<T>(fields: seq<(string, FieldSpec<T>)>)
  {
    forall i, j :: 0 <= i < j < |fields| ==> fields[i].0 != fields[j].0
  }

  function KeysOf<T>(fields: seq<(string, FieldSpec<T>)>): seq<string>
  {
    seq(|fields|, i requires 0 <= i < |fields| => fields[i].0)
  }

  /** The descriptors of `fields` as a map from name to descriptor. */
  function SpecMap<T>(fields: seq<(string, FieldSpec<T>)>): (m: map<string, FieldSpec<T>>)
    requires DistinctKeys(fields)
    ensures m.Keys == Names(KeysOf(fields))
    ensures forall i :: 0 <= i < |fields| ==> fields[i].0 in m && m[fields[i].0] == fields[i].1
  {
    var m := map i | 0 <= i < |fields| :: fields[i].0 := fields[i].1;
    assert m.Keys == Names(KeysOf(fields)) by {
      forall x | x in Names(KeysOf(fields)) ensures x in m {
        var i :| 0 <= i < |fields| && KeysOf(fields)[i] == x;
        assert fields[i].0 in m;
      }
      forall x | x in m ensures x in Names(KeysOf(fields)) {
        var i :| 0 <= i < |fields| && fields[i].0 == x;
        assert KeysOf(fields)[i] == x;
      }
    }
    m
  }

  /** Fresh storage for every field in `added`, filled by its initializer. */
  function Allocate<T>(capacity: int, added: map<string, FieldSpec<T>>): (m: map<string, seq<T>>)
    requires capacity >= 0
    ensures m.Keys == added.Keys
    ensures forall f :: f in m ==> m[f] == Fill(capacity, added[f].fill)
  {
    map f | f in added :: Fill(capacity, added[f].fill)
  }

  /** The pool with `fields` registered. */
  function Registered<T>(p: Pool<T>, fields: seq<(string, FieldSpec<T>)>): Pool<T>
    requires p.capacity >= 0 && DistinctKeys(fields)
  {
    var added := SpecMap(fields);
    p.(fieldNames := p.fieldNames + KeysOf(fields),
       specs := p.specs + added,
       store := p.store + Allocate(p.capacity, added))
  }

  lemma RegisteredValid<T>(p: Pool<T>, fields: seq<(string, FieldSpec<T>)>)
    requires Valid(p) && DistinctKeys(fields)
    ensures Valid(Registered(p, fields))
  {
    NamesAppend(p.fieldNames, KeysOf(fields));
  }

  lemma RegisteredFields<T>(p: Pool<T>, fields: seq<(string, FieldSpec<T>)>)
    requires Valid(p) && DistinctKeys(fields)
    ensures var r := Registered(p, fields);
      forall i :: 0 <= i < |fields| ==>
        && r.specs[fields[i].0] == fields[i].1
        && |r.store[fields[i].0]| == p.capacity
        && forall k :: 0 <= k < p.capacity ==> r.store[fields[i].0][k] == fields[i].1.fill
  {
  }

  lemma RegisteredKeeps<T>(p: Pool<T>, fields: seq<(string, FieldSpec<T>)>)
    requires Valid(p) && DistinctKeys(fields)
    ensures var r := Registered(p, fields);
      forall f :: f in p.store && f !in KeysOf(fields) ==>
        f in r.store && r.store[f] == p.store[f] && r.specs[f] == p.specs[f]
  {
  }

  /**
   * Registers `fields` (a mapping in insertion order): the descriptors
   * replace any earlier ones, the names are appended to the registry (a
   * re-added name appears again), and each added field gets fresh storage.
   */
  function AddFields<T>(p: Pool<T>, fields: seq<(string, FieldSpec<T>)>): (r: Pool<T>)
    requires Valid(p) && DistinctKeys(fields)
    ensures Valid(r)
    ensures r.capacity == p.capacity && r.pointer == p.pointer && r.size == p.size
    ensures |r.fieldNames| == |p.fieldNames| + |fields|
    ensures r.fieldNames[..|p.fieldNames|] == p.fieldNames
    ensures forall i :: 0 <= i < |fields| ==> r.fieldNames[|p.fieldNames| + i] == fields[i].0
    ensures forall i :: 0 <= i < |fields| ==>
      && r.specs[fields[i].0] == fields[i].1
      && |r.store[fields[i].0]| == p.capacity
      && forall k :: 0 <= k < p.capacity ==> r.store[fields[i].0][k] == fields[i].1.fill
    ensures forall f :: f in p.store && f !in KeysOf(fields) ==>
      f in r.store && r.store[f] == p.store[f] && r.specs[f] == p.specs[f]
  {
    RegisteredValid(p, fields);
    RegisteredFields(p, fields);
    RegisteredKeeps(p, fields);
    Registered(p, fields)
  }

  /** A pool of `capacity` rows holding no records, with `fields` registered. */
  function New<T>(capacity: int, fields: seq<(string, FieldSpec<T>)>): (r: Pool<T>)
    requires capacity > 0 && DistinctKeys(fields)
    ensures Valid(r) && r.capacity == capacity && r.pointer == 0 && r.size == 0
    ensures r.fieldNames == KeysOf(fields)
    ensures forall i :: 0 <= i < |fields| ==>
      && fields[i].0 in r.specs && r.specs[fields[i].0] == fields[i].1
      && fields[i].0 in r.store && |r.store[fields[i].0]| == capacity
      && forall k :: 0 <= k < capacity ==> r.store[fields[i].0][k] == fields[i].1.fill
  {
    AddFields(Pool(capacity, 0, 0, [], map[], map[]), fields)
  }

  // ---------------------------------------------------------------- advance

  /** Moves the write position `count` slots on and grows the fill count, saturating at capacity. */
  function Advance<T>(p: Pool<T>, count: nat): (r: Pool<T>)
    requires p.capacity > 0 && 0 <= p.size <= p.capacity
    ensures 0 <= r.pointer < r.capacity == p.capacity
    ensures p.size <= r.size <= p.capacity
    ensures r.size == if p.size + count < p.capacity then p.size + count else p.capacity
    ensures r.pointer == (p.pointer + count) % p.capacity
    ensures Valid(p) ==> Valid(r)
    ensures r.fieldNames == p.fieldNames && r.specs == p.specs && r.store == p.store
  {
    var size := if p.size + count < p.capacity then p.size + count else p.capacity;
    if size < p.capacity then
      ModSmall(size, p.capacity);
      p.(pointer := Slot(p.pointer, count, p.capacity), size := size)
    else
      p.(pointer := Slot(p.pointer, count, p.capacity), size := size)
  }

  /** Advancing twice is advancing once by the sum. */
  lemma AdvanceTwice<T>(p: Pool<T>, a: nat, b: nat)
    requires p.capacity > 0 && 0 <= p.size <= p.capacity
    ensures Advance(Advance(p, a), b) == Advance(p, a + b)
  {
    SlotTwice(p.pointer, a, b, p.capacity);
  }

  /** Advancing ages every position by `count`. */
  lemma AdvanceAges<T>(p: Pool<T>, count: nat, i: int)
    requires p.capacity > 0 && 0 <= p.size <= p.capacity
    ensures Age(Advance(p, count), i) == (Age(p, i) + count) % p.capacity
  {
    var q := Advance(p, count);
    assert q.pointer == Slot(p.pointer, count, p.capacity);
    BackThenForward(p.pointer, count, i, p.capacity);
    assert Age(q, i) == (Slot(p.pointer, count, p.capacity) - 1 - i) % p.capacity;
  }

  // ---------------------------------------------------------------- writes

  /** Rows supplied for a write of `n` records can be assigned: one record, a single row, or exactly `n` rows. */
  predicate Fits<T>(src: Column<T>, n: int)
  {
    src.Single? || |src.rows| == n || |src.rows| == 1
  }

  /** The record that write step `j` stores from `src`. */
  function Value<T>(src: Column<T>, j: int): T
    requires 0 <= j && (src.Rows? ==> |src.rows| == 1 || j < |src.rows|)
  {
    match src
    case Single(r) => r
    case Rows(rs) => if |rs| == 1 then rs[0] else rs[j]
  }

  /** Some step `j < n` of a write starting at `base` lands on position `i`. */
  ghost predicate Hit(base: int, n: int, cap: int, i: int)
    requires cap > 0
  {
    exists j :: 0 <= j < n && Slot(base, j, cap) == i
  }

  /**
   * `after` is `before` with a write of `n` records from `src` at `base`:
   * each of the last `cap` steps' values sits at its slot, and positions no
   * step lands on are unchanged.
   */
  ghost predicate Written<T>(before: seq<T>, after: seq<T>, base: int, n: int, cap: int, src: Column<T>)
    requires cap > 0 && Fits(src, n)
  {
    && |after| == |before|
    && (forall j :: 0 <= j < n && n - cap <= j ==> 0 <= Slot(base, j, cap) < |after| && after[Slot(base, j, cap)] == Value(src, j))
    && (forall i :: 0 <= i < |before| && !Hit(base, n, cap, i) ==> after[i] == before[i])
  }

  lemma SlotFacts(base: int, n: int, cap: int)
    requires cap > 0 && 0 <= base < cap
    ensures forall j :: 0 <= j < n && n - cap <= j ==>
      0 <= Slot(base, j, cap) < cap && (Slot(base, j, cap) - base) % cap < n
      && LastHit((Slot(base, j, cap) - base) % cap, n, cap) == j
    ensures forall i :: 0 <= i < cap && (i - base) % cap < n ==> Hit(base, n, cap, i)
    ensures forall i :: 0 <= i < cap && Hit(base, n, cap, i) ==> (i - base) % cap < n
  {
    forall j | 0 <= j < n && n - cap <= j
      ensures (Slot(base, j, cap) - base) % cap < n
      ensures LastHit((Slot(base, j, cap) - base) % cap, n, cap) == j
    {
      SlotOffset(base, j, cap);
      ModAtMost(j, cap);
      LastHitOfRecent(j, n, cap);
    }
    forall i | 0 <= i < cap && (i - base) % cap < n
      ensures Hit(base, n, cap, i)
    {
      SlotOfOffset(base, i, cap);
    }
    forall i | 0 <= i < cap && Hit(base, n, cap, i)
      ensures (i - base) % cap < n
    {
      var j :| 0 <= j < n && Slot(base, j, cap) == i;
      SlotOffset(base, j, cap);
      ModAtMost(j, cap);
    }
  }

  /**
   * Assigns the records of a write of `n` steps from `src` to the positions
   * `(base + j) mod cap`. When `n > cap` several steps land on one position;
   * numpy does not specify which assignment wins, and the model takes the
   * last one.
   */
  function WriteColumn<T>(col: seq<T>, base: int, n: nat, cap: int, src: Column<T>): (r: seq<T>)
    requires cap > 0 && 0 <= base < cap && |col| == cap && Fits(src, n)
    ensures Written(col, r, base, n, cap, src)
  {
    SlotFacts(base, n, cap);
    seq(|col|, i requires 0 <= i < |col| =>
      var d := (i - base) % cap;
      if d < n then Value(src, LastHit(d, n, cap)) else col[i])
  }

  /** Writes field `f` of a write of `n` records from `src`; nothing else changes. */
  function WriteField<T>(p: Pool<T>, f: string, n: nat, src: Column<T>): (q: Pool<T>)
    requires p.capacity > 0 && 0 <= p.pointer < p.capacity
    requires f in p.store && |p.store[f]| == p.capacity && Fits(src, n)
    ensures q.capacity == p.capacity && q.pointer == p.pointer && q.size == p.size
    ensures q.fieldNames == p.fieldNames && q.specs == p.specs
    ensures q.store.Keys == p.store.Keys
    ensures forall g :: g in q.store ==> |q.store[g]| == |p.store[g]|
    ensures forall g :: g in p.store && g != f ==> q.store[g] == p.store[g]
  {
    p.(store := p.store[f := WriteColumn(p.store[f], p.pointer, n, p.capacity, src)])
  }

  /** What the write loop leaves behind: the storage, the keyword arguments not yet consumed, and the error raised, if any. */
  datatype WriteStep<T> = WriteStep(store: map<string, seq<T>>, rest: map<string, Column<T>>, error: Option<Error>)

  /**
   * The loop over registered names in a write: a supplied value is popped
   * from the keyword arguments, an omitted one takes the field's default,
   * and the field is written before the next name is looked at.
   */
  function WriteFields<T>(p: Pool<T>, names: seq<string>, kw: map<string, Column<T>>, n: nat): (s: WriteStep<T>)
    requires p.capacity > 0 && 0 <= p.pointer < p.capacity
    requires forall f :: f in names ==> f in p.store && f in p.specs && |p.store[f]| == p.capacity
    ensures s.store.Keys == p.store.Keys
    ensures forall f :: f in s.store ==> |s.store[f]| == |p.store[f]|
    ensures s.error.None? ==> s.rest == kw - Names(names)
    ensures s.error.None? ==> forall f :: f in p.store && f !in names ==> s.store[f] == p.store[f]
    decreases |names|
  {
    if names == [] then WriteStep(p.store, kw, None)
    else
      var f := names[0];
      if f in kw then
        var src := kw[f];
        if !Fits(src, n) then WriteStep(p.store, kw - {f}, Some(ShapeMismatch(f)))
        else
          RestAfterPop(kw, names);
          WriteFields(WriteField(p, f, n, src), names[1..], kw - {f}, n)
      else match p.specs[f].default
        case None => WriteStep(p.store, kw, Some(MissingDefault(f)))
        case Some(d) =>
          RestAfterDefault(kw, names);
          WriteFields(WriteField(p, f, n, Single(d)), names[1..], kw, n)
  }

  /** Popping the first name and then removing the others removes them all. */
  lemma RestAfterPop<V>(kw: map<string, V>, names: seq<string>)
    requires names != []
    ensures (kw - {names[0]}) - Names(names[1..]) == kw - Names(names)
  {
    assert Names(names) == {names[0]} + Names(names[1..]);
  }

  /** Removing a name that is not a key changes nothing. */
  lemma RestAfterDefault<V>(kw: map<string, V>, names: seq<string>)
    requires names != [] && names[0] !in kw
    ensures kw - Names(names[1..]) == kw - Names(names)
  {
    assert Names(names) == {names[0]} + Names(names[1..]);
  }

  /** Replacing storage by storage of the same shape keeps the invariant. */
  lemma StoreSwapValid<T>(p: Pool<T>, store: map<string, seq<T>>)
    requires Valid(p) && store.Keys == p.store.Keys
    requires forall f :: f in store ==> |store[f]| == |p.store[f]|
    ensures Valid(p.(store := store))
  {
  }

  lemma NothingLeftOver<V>(kw: map<string, V>, names: set<string>)
    requires kw - names == map[]
    ensures kw.Keys <= names
  {
    forall k | k in kw ensures k in names {
      assert k !in (kw - names).Keys;
    }
  }

  /**
   * Writes `n` records. Every registered field is written first; only then
   * are leftover (unknown) keyword names rejected, so a rejected write has
   * already changed storage but does not advance pointer or size.
   */
  function AddSamples<T>(p: Pool<T>, n: nat, kw: map<string, Column<T>>): (r: WriteOutcome<T>)
    requires Valid(p)
    ensures Valid(r.pool)
    ensures r.pool.capacity == p.capacity && r.pool.fieldNames == p.fieldNames && r.pool.specs == p.specs
    ensures r.error.None? ==> r.pool == Advance(r.pool.(pointer := p.pointer, size := p.size), n)
    ensures r.error.Some? ==> r.pool.pointer == p.pointer && r.pool.size == p.size
    ensures r.error.None? ==> kw.Keys <= Names(p.fieldNames)
    ensures p.size <= r.pool.size
  {
    var s := WriteFields(p, p.fieldNames, kw, n);
    StoreSwapValid(p, s.store);
    var written := p.(store := s.store);
    if s.error.Some? then WriteOutcome(written, s.error)
    else if s.rest != map[] then WriteOutcome(written, Some(UnknownField(s.rest.Keys)))
    else
      NothingLeftOver(kw, Names(p.fieldNames));
      WriteOutcome(Advance(written, n), None)
  }

  /** Writes one record given per field. */
  function AddSample<T>(p: Pool<T>, kw: map<string, T>): (r: WriteOutcome<T>)
    requires Valid(p)
    ensures Valid(r.pool)
    ensures r.error.None? ==> r.pool.size == (if p.size < p.capacity then p.size + 1 else p.capacity)
    ensures r.error.None? ==> r.pool.pointer == (p.pointer + 1) % p.capacity
    ensures r.error.Some? ==> r.pool.pointer == p.pointer && r.pool.size == p.size
  {
    AddSamples(p, 1, map f | f in kw :: Single(kw[f]))
  }

  // ---------------------------------------------------------------- write properties

  /** The write can produce a value for field `f`: it is supplied with a usable shape, or it has a default. */
  predicate Supplies<T>(p: Pool<T>, kw: map<string, Column<T>>, n: int, f: string)
    requires f in p.specs
  {
    if f in kw then Fits(kw[f], n) else p.specs[f].default.Some?
  }

  /** Where the records written to field `f` come from: the supplied value, else the default broadcast. */
  function Effective<T>(p: Pool<T>, kw: map<string, Column<T>>, n: int, f: string): (src: Column<T>)
    requires f in p.specs && Supplies(p, kw, n, f)
    ensures Fits(src, n)
  {
    if f in kw then kw[f] else Single(p.specs[f].default.value)
  }

  /** Every registered field can be written. */
  predicate SuppliesAll<T>(p: Pool<T>, kw: map<string, Column<T>>, n: int)
    requires Valid(p)
  {
    forall f :: f in p.fieldNames ==> Supplies(p, kw, n, f)
  }

  /**
   * With distinct registered names, the write loop fails exactly when some
   * field cannot be written, and otherwise writes every field from its
   * effective source.
   */
  lemma {:induction false} WriteFieldsDistinct<T>(p: Pool<T>, names: seq<string>, kw: map<string, Column<T>>, n: nat)
    requires p.capacity > 0 && 0 <= p.pointer < p.capacity
    requires forall f :: f in names ==> f in p.store && f in p.specs && |p.store[f]| == p.capacity
    requires NoDup(names)
    ensures var s := WriteFields(p, names, kw, n);
      && (s.error.None? <==> forall f :: f in names ==> Supplies(p, kw, n, f))
      && (s.error.None? ==> forall f :: f in names ==>
            Written(p.store[f], s.store[f], p.pointer, n, p.capacity, Effective(p, kw, n, f)))
    decreases |names|
  {
    if names != [] {
      var f := names[0];
      var rest := names[1..];
      assert f !in rest by {
        forall k | 0 <= k < |rest| ensures rest[k] != f {
          assert rest[k] == names[k + 1];
        }
      }
      assert NoDup(rest) by {
        forall i, j | 0 <= i < j < |rest| ensures rest[i] != rest[j] {
          assert rest[i] == names[i + 1] && rest[j] == names[j + 1];
        }
      }
      if Supplies(p, kw, n, f) {
        var src := Effective(p, kw, n, f);
        var kw' := if f in kw then kw - {f} else kw;
        var p' := WriteField(p, f, n, src);
        assert WriteFields(p, names, kw, n) == WriteFields(p', rest, kw', n);
        WriteFieldsDistinct(p', rest, kw', n);
        forall g | g in rest ensures Supplies(p', kw', n, g) == Supplies(p, kw, n, g) {
          assert g != f;
        }
      }
    }
  }

  /**
   * A field registered twice is visited twice by the write loop: the first
   * visit pops the supplied value, so the second finds it gone and writes
   * the default over it. The supplied records are lost.
   */
  lemma ReAddedFieldTakesDefault<T>(p: Pool<T>, n: nat, kw: map<string, Column<T>>, f: string, d: T)
    requires Valid(p) && p.fieldNames == [f, f] && kw.Keys == {f} && Fits(kw[f], n)
    requires p.specs[f].default == Some(d)
    ensures AddSamples(p, n, kw).error.None?
    ensures Written(p.store[f], AddSamples(p, n, kw).pool.store[f], p.pointer, n, p.capacity, Single(d))
  {
    var p1 := WriteField(p, f, n, kw[f]);
    var p2 := WriteField(p1, f, n, Single(d));
    assert [f, f][1..] == [f] && [f][1..] == [];
    assert f !in kw - {f};
    assert WriteFields(p1, [f], kw - {f}, n) == WriteFields(p2, [], kw - {f}, n);
    assert WriteFields(p, p.fieldNames, kw, n) == WriteFields(p1, [f], kw - {f}, n);
    assert kw - {f} == map[];
    WrittenOver(p.store[f], p1.store[f], p2.store[f], p.pointer, n, p.capacity, kw[f], Single(d));
  }

  /** A second write at the same position and count hides the first one entirely. */
  lemma WrittenOver<T>(c0: seq<T>, c1: seq<T>, c2: seq<T>, base: int, n: int, cap: int, first: Column<T>, second: Column<T>)
    requires cap > 0 && Fits(first, n) && Fits(second, n)
    requires Written(c0, c1, base, n, cap, first) && Written(c1, c2, base, n, cap, second)
    ensures Written(c0, c2, base, n, cap, second)
  {
  }

  /** A write succeeds exactly when every registered field can be written and no unknown field is supplied. */
  lemma AddSamplesSucceedsIff<T>(p: Pool<T>, n: nat, kw: map<string, Column<T>>)
    requires Valid(p) && NoDup(p.fieldNames)
    ensures AddSamples(p, n, kw).error.None? <==> SuppliesAll(p, kw, n) && kw.Keys <= Names(p.fieldNames)
  {
    WriteFieldsDistinct(p, p.fieldNames, kw, n);
  }

  /**
   * When every registered field can be written, each one is written at
   * `(pointer + j) mod capacity` from its supplied value or its default,
   * other rows keep their records; an unknown field is reported only after
   * this, with pointer and size not advanced.
   */
  lemma AddSamplesWrites<T>(p: Pool<T>, n: nat, kw: map<string, Column<T>>)
    requires Valid(p) && NoDup(p.fieldNames) && SuppliesAll(p, kw, n)
    ensures var r := AddSamples(p, n, kw);
      && (forall f :: f in p.fieldNames ==>
            Written(p.store[f], r.pool.store[f], p.pointer, n, p.capacity, Effective(p, kw, n, f)))
      && (!(kw.Keys <= Names(p.fieldNames)) ==>
            && r.error == Some(UnknownField(kw.Keys - Names(p.fieldNames)))
            && r.pool.pointer == p.pointer && r.pool.size == p.size)
  {
    WriteFieldsDistinct(p, p.fieldNames, kw, n);
  }

  /** A one-record write stores `src`'s record at `base` and nowhere else. */
  lemma WrittenOnce<T>(before: seq<T>, after: seq<T>, base: int, cap: int, src: Column<T>)
    requires 0 <= base < cap && |before| == cap && Fits(src, 1)
    requires Written(before, after, base, 1, cap, src)
    ensures |after| == cap && after[base] == Value(src, 0)
    ensures forall i :: 0 <= i < cap && i != base ==> after[i] == before[i]
  {
    assert Slot(base, 0, cap) == base;
    forall i | 0 <= i < cap && i != base ensures after[i] == before[i] {
      assert !Hit(base, 1, cap, i);
    }
  }

  /**
   * With distinct registered names and every unsupplied field defaulted, a
   * one-record write succeeds exactly when every keyword is registered, and
   * stores each field's supplied record, or else its default, at the
   * pointer, leaving every other row as it was.
   */
  lemma AddSampleWrites<T>(p: Pool<T>, kw: map<string, T>)
    requires Valid(p) && NoDup(p.fieldNames)
    requires forall f :: f in p.fieldNames && f !in kw ==> p.specs[f].default.Some?
    ensures var r := AddSample(p, kw);
      && (r.error.None? <==> kw.Keys <= Names(p.fieldNames))
      && (forall f :: f in p.fieldNames ==>
            && f in r.pool.store && |r.pool.store[f]| == p.capacity
            && r.pool.store[f][p.pointer] == (if f in kw then kw[f] else p.specs[f].default.value)
            && forall i :: 0 <= i < p.capacity && i != p.pointer ==> r.pool.store[f][i] == p.store[f][i])
  {
    var cols := map f | f in kw :: Single(kw[f]);
    assert cols.Keys == kw.Keys;
    assert SuppliesAll(p, cols, 1);
    AddSamplesSucceedsIff(p, 1, cols);
    AddSamplesWrites(p, 1, cols);
    var r := AddSamples(p, 1, cols);
    forall f | f in p.fieldNames
      ensures f in r.pool.store && |r.pool.store[f]| == p.capacity
      ensures r.pool.store[f][p.pointer] == (if f in kw then kw[f] else p.specs[f].default.value)
      ensures forall i :: 0 <= i < p.capacity && i != p.pointer ==> r.pool.store[f][i] == p.store[f][i]
    {
      WrittenOnce(p.store[f], r.pool.store[f], p.pointer, p.capacity, Effective(p, cols, 1, f));
    }
  }
}

=== FILE: results.dfy ===
/** Failure-carrying result types shared by the replay pool modules. */
module Results {

  /** An optional value. */
  datatype Option<+T> = None | Some(value: T)

  /** The outcome of an operation that may raise: a value or the error raised. */
  datatype Result<+R, +E> = Success(value: R) | Failure(error: E)
}

=== FILE: ring_arith.dfy ===
/** Modular arithmetic on ring positions (Dafny's `%` agrees with Python's for a positive divisor). */
module RingArith {

  /** Position of the `j`-th slot counted from `base` in a ring of `cap` slots. */
  function Slot(base: int, j: int, cap: int): int
    requires cap > 0
  {
    (base + j) % cap
  }

  lemma MulBound(k: int, m: int)
    requires m > 0
    ensures k >= 1 ==> k * m >= m
    ensures k <= -1 ==> k * m <= -m
  {
    if k >= 1 {
      assert k * m == (k - 1) * m + m;
      assert (k - 1) * m >= 0;
    } else if k <= -1 {
      assert k * m == (k + 1) * m - m;
      assert (k + 1) * m <= 0;
    }
  }

  /** Quotient and remainder are determined by any decomposition with a remainder in range. */
  lemma ModUnique(x: int, q: int, r: int, m: int)
    requires m > 0 && 0 <= r < m && x == q * m + r
    ensures x % m == r && x / m == q
  {
    var q0, r0 := x / m, x % m;
    assert x == q0 * m + r0;
    assert (q - q0) * m == r0 - r;
    MulBound(q - q0, m);
  }

  lemma ModShift(x: int, q: int, m: int)
    requires m > 0
    ensures (x + q * m) % m == x % m
  {
    assert x == (x / m) * m + x % m;
    assert x + q * m == (x / m + q) * m + x % m;
    ModUnique(x + q * m, x / m + q, x % m, m);
  }

  lemma ModSmall(x: int, m: int)
    requires 0 <= x < m
    ensures x % m == x
  {
    ModUnique(x, 0, x, m);
  }

  /** Reducing the left summand first does not change the residue. */
  lemma ModAddLeft(a: int, b: int, m: int)
    requires m > 0
    ensures (a % m + b) % m == (a + b) % m
  {
    assert a == (a / m) * m + a % m;
    ModShift(a % m + b, a / m, m);
  }

  /** Reducing the subtrahend first does not change the residue. */
  lemma ModSubRight(a: int, b: int, m: int)
    requires m > 0
    ensures (a - b % m) % m == (a - b) % m
  {
    assert b == (b / m) * m + b % m;
    ModShift(a - b, b / m, m);
  }

  /** Moving `a` then `b` slots is moving `a + b` slots. */
  lemma SlotTwice(base: int, a: int, b: int, cap: int)
    requires cap > 0
    ensures Slot(Slot(base, a, cap), b, cap) == Slot(base, a + b, cap)
  {
    ModAddLeft(base + a, b, cap);
  }

  /** Counting back `1 + i` slots from a pointer moved `k` slots on is counting back from the old pointer and adding `k`. */
  lemma BackThenForward(ptr: int, k: int, i: int, cap: int)
    requires cap > 0
    ensures (Slot(ptr, k, cap) - 1 - i) % cap == ((ptr - 1 - i) % cap + k) % cap
  {
    var a := Slot(ptr, k, cap);
    var b := ptr - 1 - i;
    calc {
      (a - 1 - i) % cap;
      ((ptr + k) % cap + (-1 - i)) % cap;
      { ModAddLeft(ptr + k, -1 - i, cap); }
      (b + k) % cap;
      { ModAddLeft(b, k, cap); }
      (b % cap + k) % cap;
    }
  }

  /** The slot `k - j` places behind `ptr` lies `k - 1 - j` places before the slot just behind `ptr`. */
  lemma BackDistance(ptr: int, k: int, j: int, cap: int)
    requires cap > 0 && 0 <= j < k <= cap
    ensures (ptr - 1 - (ptr - k + j) % cap) % cap == k - 1 - j
  {
    calc {
      (ptr - 1 - (ptr - k + j) % cap) % cap;
      { ModSubRight(ptr - 1, ptr - k + j, cap); }
      (ptr - 1 - (ptr - k + j)) % cap;
      (k - 1 - j) % cap;
      { ModSmall(k - 1 - j, cap); }
      k - 1 - j;
    }
  }

  /** Consecutive steps back from `ptr` are consecutive slots. */
  lemma BackNext(ptr: int, k: int, j: int, cap: int)
    requires cap > 0
    ensures (ptr - k + (j + 1)) % cap == ((ptr - k + j) % cap + 1) % cap
  {
    calc {
      ((ptr - k + j) % cap + 1) % cap;
      { ModAddLeft(ptr - k + j, 1, cap); }
      (ptr - k + j + 1) % cap;
    }
  }

  lemma ModAtMost(j: int, m: int)
    requires m > 0 && j >= 0
    ensures j % m <= j
  {
    if j < m {
      ModSmall(j, m);
    }
  }

  /** Counting back from `base` to the slot `j` steps after it gives `j` again, modulo `cap`. */
  lemma SlotOffset(base: int, j: int, cap: int)
    requires cap > 0
    ensures (Slot(base, j, cap) - base) % cap == j % cap
  {
    ModAddLeft(base + j, -base, cap);
  }

  /** Every position of the ring is the slot of its own offset from `base`. */
  lemma SlotOfOffset(base: int, i: int, cap: int)
    requires cap > 0 && 0 <= i < cap
    ensures Slot(base, (i - base) % cap, cap) == i
  {
    ModAddLeft(i - base, base, cap);
    ModSmall(i, cap);
  }

  /** Two slots counted from the same base coincide exactly when their step counts agree modulo `cap`. */
  lemma SameResidueInWindow(a: int, b: int, m: int)
    requires m > 0 && a % m == b % m && -m < a - b < m
    ensures a == b
  {
    assert a == (a / m) * m + a % m;
    assert b == (b / m) * m + b % m;
    assert a - b == (a / m - b / m) * m;
    MulBound(a / m - b / m, m);
  }

  /**
   * Among the write steps `0 .. n-1` that land on offset `d`, the last one.
   * When a write of `n` records wraps around more than once, this is the
   * step whose value a position finally holds.
   */
  function LastHit(d: int, n: int, cap: int): (j: int)
    requires cap > 0 && 0 <= d < cap && d < n
    ensures 0 <= j < n && n - cap <= j
    ensures j % cap == d
  {
    var t := n - 1 - d;
    assert t == (t / cap) * cap + t % cap;
    ModUnique(d + cap * (t / cap), t / cap, d, cap);
    d + cap * (t / cap)
  }

  /** A step among the last `cap` steps is the last step landing on its own offset. */
  lemma LastHitOfRecent(j: int, n: int, cap: int)
    requires cap > 0 && 0 <= j < n && n - cap <= j
    ensures LastHit(j % cap, n, cap) == j
  {
    ModAtMost(j, cap);
    var h := LastHit(j % cap, n, cap);
    SameResidueInWindow(h, j, cap);
  }
}

=== FILE: sampling.dfy ===
/**
 * Reading from a flexible replay pool: choosing indices (uniformly at
 * random, or the most recent N) and gathering the selected fields' rows at
 * those indices.
 */
module Sampling {
  import opened Results
  import opened RingArith
  import opened FlexiblePool

  /** A gathered batch: the field names in the order they were gathered and the rows gathered for each. */
  datatype Batch<T> = Batch(order: seq<string>, columns: map<string, seq<T>>)

  /** The names of `names` that `keep` accepts, in order. */
  function Select(names: seq<string>, keep: string -> bool): (r: seq<string>)
    ensures |r| <= |names|
    ensures forall x :: x in r <==> x in names && keep(x)
  {
    if names == [] then []
    else (if keep(names[0]) then [names[0]] else []) + Select(names[1..], keep)
  }

  /** Selecting from a concatenation selects from each part and keeps the parts in order. */
  lemma {:induction false} SelectAppend(a: seq<string>, b: seq<string>, keep: string -> bool)
    ensures Select(a + b, keep) == Select(a, keep) + Select(b, keep)
    decreases |a|
  {
    if a == [] {
      assert a + b == b;
    } else {
      assert (a + b)[0] == a[0] && (a + b)[1..] == a[1..] + b;
      SelectAppend(a[1..], b, keep);
    }
  }

  /** A single name is kept exactly when `keep` accepts it. */
  lemma SelectOne(x: string, keep: string -> bool)
    ensures Select([x], keep) == if keep(x) then [x] else []
  {
    assert [x][1..] == [];
  }

  /** The registered names a batch gathers: all of them without a filter. */
  function FilterNames(names: seq<string>, filter: Option<string -> bool>): (r: seq<string>)
    ensures forall x :: x in r <==> x in names && (filter.Some? ==> filter.value(x))
  {
    match filter
    case None => names
    case Some(keep) => Select(names, keep)
  }

  /** The position of the first occurrence of `x` in `s`. */
  function IndexOf(s: seq<string>, x: string): (k: nat)
    requires x in s
    ensures k < |s| && s[k] == x && forall j :: 0 <= j < k ==> s[j] != x
  {
    if s[0] == x then 0 else 1 + IndexOf(s[1..], x)
  }

  /** The names of `s` with every repetition dropped, each at its first occurrence: the key order of a dictionary built by inserting `s` in turn. */
  function Unique(s: seq<string>): (r: seq<string>)
    ensures NoDup(r)
    ensures forall x :: x in r <==> x in s
    decreases |s|
  {
    if s == [] then []
    else
      var init, last := s[..|s| - 1], s[|s| - 1];
      assert s == init + [last];
      var u := Unique(init);
      if last in u then u else u + [last]
  }

  /** A sequence without repetitions is its own key order. */
  lemma {:induction false} UniqueOfNoDup(s: seq<string>)
    requires NoDup(s)
    ensures Unique(s) == s
    decreases |s|
  {
    if s != [] {
      var init := s[..|s| - 1];
      assert NoDup(init) by {
        forall i, j | 0 <= i < j < |init| ensures init[i] != init[j] {
          assert init[i] == s[i] && init[j] == s[j];
        }
      }
      UniqueOfNoDup(init);
      assert s[|s| - 1] !in init by {
        forall k | 0 <= k < |init| ensures init[k] != s[|s| - 1] {
          assert init[k] == s[k];
        }
      }
      assert s == init + [s[|s| - 1]];
    }
  }

  /** The key order lists names by their first occurrence in `s`. */
  lemma {:induction false} UniqueKeepsFirstOrder(s: seq<string>)
    ensures forall i, j :: 0 <= i < j < |Unique(s)| ==> IndexOf(s, Unique(s)[i]) < IndexOf(s, Unique(s)[j])
    decreases |s|
  {
    if s != [] {
      var init, last := s[..|s| - 1], s[|s| - 1];
      assert s == init + [last];
      UniqueKeepsFirstOrder(init);
      var u := Unique(init);
      forall y | y in init ensures IndexOf(s, y) == IndexOf(init, y) {
        var k, m := IndexOf(s, y), IndexOf(init, y);
        assert s[m] == y;
        assert k <= m;
        assert init[k] == y;
      }
      if last !in u {
        assert forall t :: 0 <= t < |init| ==> s[t] == init[t];
        assert IndexOf(s, last) == |init|;
        var r := u + [last];
        forall i, j | 0 <= i < j < |r| ensures IndexOf(s, r[i]) < IndexOf(s, r[j]) {
          assert r[i] == u[i];
          if j < |u| { assert r[j] == u[j]; }
        }
      }
    }
  }

  /** The keys of the batch dictionary, in insertion order: the filtered registry without repetitions. */
  function BatchKeys(names: seq<string>, filter: Option<string -> bool>): (r: seq<string>)
    ensures NoDup(r)
    ensures forall x :: x in r <==> x in names && (filter.Some? ==> filter.value(x))
  {
    Unique(FilterNames(names, filter))
  }

  /** Python's `any` over the indices reduced modulo capacity: some index is not a multiple of the capacity. */
  predicate AnyNonZero(idx: seq<int>, cap: int)
    requires cap > 0
  {
    exists i :: 0 <= i < |idx| && idx[i] % cap != 0
  }

  /** A Python boolean used as an integer. */
  function BoolAsInt(b: bool): int
  {
    if b then 1 else 0
  }

  /** Every index addresses a row of storage under Python's indexing (negative indices count from the end). */
  predicate Addressable(idx: seq<int>, cap: int)
  {
    forall i :: 0 <= i < |idx| ==> -cap <= idx[i] < cap
  }

  /**
   * Reads the rows `idx` of every field in `names`. Indexing storage with an
   * index outside `[-capacity, capacity)` raises, but only once a field is
   * actually read.
   */
  function Gather<T>(p: Pool<T>, idx: seq<int>, names: seq<string>): (r: Result<Batch<T>, Error>)
    requires Valid(p) && forall f :: f in names ==> f in p.fieldNames
    ensures r.Failure? <==> names != [] && !Addressable(idx, p.capacity)
    ensures r.Failure? ==> r.error == IndexOutOfBounds
    ensures r.Success? ==> r.value.order == names && r.value.columns.Keys == Names(names)
    ensures r.Success? ==> forall f :: f in r.value.columns ==>
      f in p.store && |r.value.columns[f]| == |idx|
      && forall i :: 0 <= i < |idx| ==> r.value.columns[f][i] == p.store[f][idx[i] % p.capacity]
  {
    if names != [] && !Addressable(idx, p.capacity) then Failure(IndexOutOfBounds)
    else
      Success(Batch(names, map f | f in names ::
        seq(|idx|, i requires 0 <= i < |idx| => p.store[f][idx[i] % p.capacity])))
  }

  /**
   * `batch_by_indices` as written. Its bounds check reduces the
   * normalised indices to one boolean with `any` before comparing with the
   * size, so it compares `True` or `False` (1 or 0) with `size`.
   */
  function BatchByIndices<T>(p: Pool<T>, idx: seq<int>, filter: Option<string -> bool>): (r: Result<Batch<T>, Error>)
    requires Valid(p)
    ensures r.Failure? && r.error == OutOfRange <==> p.size == 0 && exists i :: 0 <= i < |idx| && idx[i] % p.capacity != 0
    ensures r.Success? <==> (!(p.size == 0 && AnyNonZero(idx, p.capacity))
      && (BatchKeys(p.fieldNames, filter) == [] || Addressable(idx, p.capacity)))
    ensures r.Success? ==> r.value.order == BatchKeys(p.fieldNames, filter) && r.value.columns.Keys == Names(r.value.order)
    ensures r.Success? ==> forall f :: f in r.value.columns ==>
      f in p.store && |r.value.columns[f]| == |idx|
      && forall i :: 0 <= i < |idx| ==> r.value.columns[f][i] == p.store[f][idx[i] % p.capacity]
  {
    if BoolAsInt(AnyNonZero(idx, p.capacity)) > p.size then Failure(OutOfRange)
    else Gather(p, idx, BatchKeys(p.fieldNames, filter))
  }

  /** The per-index bounds check `batch_by_indices` evidently intends: reject when any normalised index is at or beyond `size`. */
  function BatchByIndicesChecked<T>(p: Pool<T>, idx: seq<int>, filter: Option<string -> bool>): (r: Result<Batch<T>, Error>)
    requires Valid(p)
    ensures r.Success? <==> ((forall i :: 0 <= i < |idx| ==> idx[i] % p.capacity < p.size)
      && (BatchKeys(p.fieldNames, filter) == [] || Addressable(idx, p.capacity)))
    ensures r.Success? ==> r.value.order == BatchKeys(p.fieldNames, filter) && r.value.columns.Keys == Names(r.value.order)
    ensures r.Success? ==> forall f :: f in r.value.columns ==>
      f in p.store && |r.value.columns[f]| == |idx|
      && forall i :: 0 <= i < |idx| ==> InWindow(p, idx[i] % p.capacity) && r.value.columns[f][i] == p.store[f][idx[i] % p.capacity]
  {
    if exists i :: 0 <= i < |idx| && idx[i] % p.capacity >= p.size then Failure(OutOfRange)
    else
      assert forall i :: 0 <= i < |idx| ==> InWindow(p, idx[i] % p.capacity) by {
        forall i | 0 <= i < |idx| ensures InWindow(p, idx[i] % p.capacity) {
          if p.size < p.capacity { WindowIsPrefix(p, idx[i] % p.capacity); }
          else { FullPoolWindowIsEverything(p, idx[i] % p.capacity); }
        }
      }
      Gather(p, idx, BatchKeys(p.fieldNames, filter))
  }

  /** The corrected check rejects exactly the requests that touch a position outside the valid window. */
  lemma CheckedRejectsOutsideWindow<T>(p: Pool<T>, idx: seq<int>, filter: Option<string -> bool>)
    requires Valid(p)
    ensures BatchByIndicesChecked(p, idx, filter) == Failure(OutOfRange)
      <==> exists i :: 0 <= i < |idx| && !InWindow(p, idx[i] % p.capacity)
  {
    if p.size < p.capacity {
      forall i | 0 <= i < |idx| ensures InWindow(p, idx[i] % p.capacity) <==> idx[i] % p.capacity < p.size {
        WindowIsPrefix(p, idx[i] % p.capacity);
      }
    }
  }

  /**
   * The collapsed check of `batch_by_indices` lets through every index that names a row
   * no write has filled: in a pool holding `size > 0` records with room for
   * more, any index in `[size, capacity)` is read without error, whereas the
   * corrected check rejects it.
   */
  lemma CollapsedCheckAdmitsUnwrittenRow<T>(p: Pool<T>, k: int)
    requires Valid(p) && 0 < p.size <= k < p.capacity
    ensures !InWindow(p, k)
    ensures BatchByIndices(p, [k], None).Success?
    ensures BatchByIndicesChecked(p, [k], None) == Failure(OutOfRange)
  {
    WindowIsPrefix(p, k);
    ModSmall(k, p.capacity);
    var idx := [k];
    assert idx[0] % p.capacity >= p.size;
    assert AnyNonZero(idx, p.capacity);
  }

  /** On indices inside `[0, size)` the check of `batch_by_indices` as written and the corrected one agree, and neither raises. */
  lemma ChecksAgreeOnFilledRows<T>(p: Pool<T>, idx: seq<int>, filter: Option<string -> bool>)
    requires Valid(p) && forall i :: 0 <= i < |idx| ==> 0 <= idx[i] < p.size
    ensures BatchByIndices(p, idx, filter).Success?
    ensures BatchByIndices(p, idx, filter) == BatchByIndicesChecked(p, idx, filter)
  {
    forall i | 0 <= i < |idx| ensures idx[i] % p.capacity == idx[i] {
      ModSmall(idx[i], p.capacity);
    }
  }

  // ---------------------------------------------------------------- index selection

  /**
   * Draws `batchSize` indices uniformly with replacement from `[0, size)`;
   * the random draw is a nondeterministic choice. An empty pool yields no
   * indices whatever `batchSize` is.
   */
  method RandomIndices<T>(p: Pool<T>, batchSize: nat) returns (idx: seq<int>)
    requires Valid(p)
    ensures p.size == 0 ==> idx == []
    ensures p.size > 0 ==> |idx| == batchSize
    ensures forall i :: 0 <= i < |idx| ==> 0 <= idx[i] < p.size
  {
    if p.size == 0 {
      return [];
    }
    idx := [];
    while |idx| < batchSize
      invariant |idx| <= batchSize
      invariant forall i :: 0 <= i < |idx| ==> 0 <= idx[i] < p.size
    {
      var k :| 0 <= k < p.size;
      idx := idx + [k];
    }
  }

  /** Some valid position of field `f` holds `v`. */
  ghost predicate HeldInWindow<T>(p: Pool<T>, f: string, v: T)
    requires p.capacity > 0
  {
    f in p.store && exists k :: InWindow(p, k) && k < |p.store[f]| && p.store[f][k] == v
  }

  /** Gathers a batch at randomly drawn indices, which it also returns; it never raises, and every row it returns is a valid record. */
  method RandomBatch<T>(p: Pool<T>, batchSize: nat, filter: Option<string -> bool>) returns (idx: seq<int>, r: Result<Batch<T>, Error>)
    requires Valid(p)
    ensures forall i :: 0 <= i < |idx| ==> 0 <= idx[i] < p.size
    ensures r == BatchByIndices(p, idx, filter)
    ensures r.Success?
    ensures r.value.order == BatchKeys(p.fieldNames, filter) && r.value.columns.Keys == Names(r.value.order)
    ensures forall f :: f in r.value.columns ==> |r.value.columns[f]| == (if p.size == 0 then 0 else batchSize)
    ensures forall f, i :: f in r.value.columns && 0 <= i < |r.value.columns[f]| ==>
      HeldInWindow(p, f, r.value.columns[f][i])
  {
    idx := RandomIndices(p, batchSize);
    ChecksAgreeOnFilledRows(p, idx, filter);
    r := BatchByIndicesChecked(p, idx, filter);
    forall i | 0 <= i < |idx| ensures idx[i] % p.capacity == idx[i] && InWindow(p, idx[i]) {
      ModSmall(idx[i], p.capacity);
      if p.size < p.capacity { WindowIsPrefix(p, idx[i]); }
    }
    forall f, i | f in r.value.columns && 0 <= i < |r.value.columns[f]|
      ensures HeldInWindow(p, f, r.value.columns[f][i])
    {
      assert |r.value.columns[f]| == |idx|;
      assert InWindow(p, idx[i]) && r.value.columns[f][i] == p.store[f][idx[i]];
    }
  }

  /** The position `k - j` writes before the pointer. */
  function BackSlot<T>(p: Pool<T>, k: int, j: int): int
    requires p.capacity > 0
  {
    (p.pointer - k + j) % p.capacity
  }

  lemma BackSlotAges<T>(p: Pool<T>, k: int)
    requires Valid(p) && 0 <= k <= p.size
    ensures forall j :: 0 <= j < k ==> Age(p, BackSlot(p, k, j)) == k - 1 - j
  {
    forall j | 0 <= j < k
      ensures Age(p, BackSlot(p, k, j)) == k - 1 - j
    {
      BackDistance(p.pointer, k, j, p.capacity);
    }
  }

  lemma BackSlotsConsecutive<T>(p: Pool<T>, k: int)
    requires Valid(p)
    ensures forall j :: 0 <= j < k - 1 ==> BackSlot(p, k, j + 1) == (BackSlot(p, k, j) + 1) % p.capacity
  {
    forall j | 0 <= j < k - 1
      ensures BackSlot(p, k, j + 1) == (BackSlot(p, k, j) + 1) % p.capacity
    {
      BackNext(p.pointer, k, j, p.capacity);
    }
  }

  /**
   * The positions of the most recent `min(size, n)` records, oldest first:
   * consecutive modulo capacity and ending just before the pointer.
   */
  function LastNIndices<T>(p: Pool<T>, n: nat): (r: seq<int>)
    requires Valid(p)
    ensures |r| == (if p.size < n then p.size else n)
    ensures forall j :: 0 <= j < |r| ==> 0 <= r[j] < p.capacity
    ensures forall j :: 0 <= j < |r| - 1 ==> r[j + 1] == (r[j] + 1) % p.capacity
    ensures |r| > 0 ==> r[|r| - 1] == (p.pointer - 1) % p.capacity
    ensures forall j :: 0 <= j < |r| ==> Age(p, r[j]) == |r| - 1 - j && InWindow(p, r[j])
  {
    var k := if p.size < n then p.size else n;
    BackSlotAges(p, k);
    BackSlotsConsecutive(p, k);
    assert k > 0 ==> p.pointer - k + (k - 1) == p.pointer - 1;
    seq(k, j requires 0 <= j < k => BackSlot(p, k, j))
  }

  /** The last-`n` positions depend only on the capacity, pointer and size. */
  lemma LastNIndicesOfCounters<T>(p: Pool<T>, q: Pool<T>, n: nat)
    requires Valid(p) && Valid(q)
    requires q.capacity == p.capacity && q.pointer == p.pointer && q.size == p.size
    ensures LastNIndices(q, n) == LastNIndices(p, n)
  {
    var a, b := LastNIndices(p, n), LastNIndices(q, n);
    var k := |a|;
    forall j | 0 <= j < k ensures a[j] == b[j] {
      assert a[j] == BackSlot(p, k, j);
      assert b[j] == BackSlot(q, k, j);
    }
  }

  /** The batch of the most recent `min(size, n)` records in write order; it never raises. */
  function LastNBatch<T>(p: Pool<T>, n: nat, filter: Option<string -> bool>): (r: Result<Batch<T>, Error>)
    requires Valid(p)
    ensures r.Success?
    ensures r.value.order == BatchKeys(p.fieldNames, filter) && r.value.columns.Keys == Names(r.value.order)
    ensures forall f :: f in r.value.columns ==>
      f in p.store && |r.value.columns[f]| == (if p.size < n then p.size else n)
      && forall j :: 0 <= j < |r.value.columns[f]| ==> r.value.columns[f][j] == p.store[f][LastNIndices(p, n)[j]]
  {
    var idx := LastNIndices(p, n);
    assert forall j :: 0 <= j < |idx| ==> idx[j] % p.capacity == idx[j] by {
      forall j | 0 <= j < |idx| ensures idx[j] % p.capacity == idx[j] { ModSmall(idx[j], p.capacity); }
    }
    CheckedRejectsOutsideWindow(p, idx, filter);
    BatchByIndicesChecked(p, idx, filter)
  }

  /** The last-`n` indices all lie in `[0, size)`, so the check as written and the corrected one read the same batch. */
  lemma LastNBatchAsWritten<T>(p: Pool<T>, n: nat, filter: Option<string -> bool>)
    requires Valid(p)
    ensures LastNBatch(p, n, filter) == BatchByIndices(p, LastNIndices(p, n), filter)
  {
    var idx := LastNIndices(p, n);
    forall j | 0 <= j < |idx| ensures 0 <= idx[j] < p.size {
      if p.size < p.capacity { WindowIsPrefix(p, idx[j]); }
    }
    ChecksAgreeOnFilledRows(p, idx, filter);
  }

  // ---------------------------------------------------------------- recency after a write

  /** Once the pointer has moved `n` slots on from `base`, the last `m` positions are the slots of write steps `n - m .. n - 1`. */
  lemma RecentSlots<T>(q: Pool<T>, base: int, n: nat, m: nat)
    requires Valid(q) && q.pointer == Slot(base, n, q.capacity) && m <= q.size
    ensures |LastNIndices(q, m)| == m
    ensures forall t :: 0 <= t < m ==> LastNIndices(q, m)[t] == Slot(base, n - m + t, q.capacity)
  {
    forall t | 0 <= t < m
      ensures LastNIndices(q, m)[t] == Slot(base, n - m + t, q.capacity)
    {
      var c := q.capacity;
      var a, b := base + n, t - m;
      ModAddLeft(a, b, c);
      assert q.pointer - m + t == a % c + b;
      calc {
        LastNIndices(q, m)[t];
        BackSlot(q, m, t);
        (a % c + b) % c;
        (a + b) % c;
        Slot(base, n - m + t, c);
      }
    }
  }

  /**
   * After a successful write of `n` records, the `m <= min(n, capacity)`
   * most recent positions hold the last `m` records of that write, oldest
   * first, taken from the supplied value or the field's default.
   */
  lemma LastNAfterWrite<T>(p: Pool<T>, n: nat, kw: map<string, Column<T>>, m: nat, f: string)
    requires Valid(p) && NoDup(p.fieldNames) && AddSamples(p, n, kw).error.None?
    requires m <= n && m <= p.capacity && f in p.fieldNames
    ensures SuppliesAll(p, kw, n)
    ensures var q := AddSamples(p, n, kw).pool;
      && |LastNIndices(q, m)| == m
      && forall t :: 0 <= t < m ==> q.store[f][LastNIndices(q, m)[t]] == Value(Effective(p, kw, n, f), n - m + t)
  {
    AddSamplesSucceedsIff(p, n, kw);
    AddSamplesWrites(p, n, kw);
    var q := AddSamples(p, n, kw).pool;
    var src := Effective(p, kw, n, f);
    assert Written(p.store[f], q.store[f], p.pointer, n, p.capacity, src);
    assert q.pointer == Slot(p.pointer, n, p.capacity) && m <= q.size;
    RecentSlots(q, p.pointer, n, m);
  }

  /** The column of an unfiltered last-`m` batch lists the records at the last `m` positions. */
  lemma LastNColumn<T>(q: Pool<T>, m: nat, f: string, vals: seq<T>)
    requires Valid(q) && m <= q.size && f in q.fieldNames && |vals| == m
    requires forall t :: 0 <= t < m ==> q.store[f][LastNIndices(q, m)[t]] == vals[t]
    ensures f in LastNBatch(q, m, None).value.columns
    ensures LastNBatch(q, m, None).value.columns[f] == vals
  {
    var b := LastNBatch(q, m, None);
    assert f in b.value.columns;
    assert |b.value.columns[f]| == m;
  }

  lemma LastNOfRows<T>(q: Pool<T>, n: nat, m: nat, f: string, rs: seq<T>)
    requires Valid(q) && m <= q.size && f in q.fieldNames && m <= n && |rs| == n
    requires |LastNIndices(q, m)| == m
    requires forall t :: 0 <= t < m ==> q.store[f][LastNIndices(q, m)[t]] == Value(Rows(rs), n - m + t)
    ensures f in LastNBatch(q, m, None).value.columns
    ensures LastNBatch(q, m, None).value.columns[f] == rs[n - m..]
  {
    forall t | 0 <= t < m ensures q.store[f][LastNIndices(q, m)[t]] == rs[n - m..][t] {
      assert Value(Rows(rs), n - m + t) == rs[n - m + t];
    }
    LastNColumn(q, m, f, rs[n - m..]);
  }

  /**
   * Writing a batch of `n` rows to field `f` and then asking for the last
   * `m` records returns the final `m` rows of that batch, in order; with
   * `m == n <= capacity` it returns the batch itself, however often the
   * pool has wrapped.
   */
  lemma LastNBatchAfterWrite<T>(p: Pool<T>, n: nat, kw: map<string, Column<T>>, m: nat, f: string)
    requires Valid(p) && NoDup(p.fieldNames) && AddSamples(p, n, kw).error.None?
    requires m <= n && m <= p.capacity && f in kw && kw[f].Rows? && |kw[f].rows| == n
    ensures var b := LastNBatch(AddSamples(p, n, kw).pool, m, None);
      f in b.value.columns && b.value.columns[f] == kw[f].rows[n - m..]
  {
    assert f in p.fieldNames;
    LastNAfterWrite(p, n, kw, m, f);
    var q := AddSamples(p, n, kw).pool;
    var rs := kw[f].rows;
    assert Effective(p, kw, n, f) == Rows(rs);
    assert m <= q.size && f in q.fieldNames;
    LastNOfRows(q, n, m, f, rs);
  }
}

=== FILE: snapshot_codec.dfy ===
/**
 * Export and import of a flexible replay pool's state. Export drops the
 * never-written tail of every field while the pool has not wrapped; import
 * pads it back with zero records.
 */
module SnapshotCodec {
  import opened Results
  import opened RingArith
  import opened FlexiblePool
  import opened Sampling

  /** The exported state: the pool's counters and registry verbatim, and the rows kept for each field. */
  datatype Snapshot<T> = Snapshot(
    capacity: int,
    pointer: int,
    size: int,
    fieldNames: seq<string>,
    specs: map<string, FieldSpec<T>>,
    arrays: map<string, seq<T>>)

  /** Python's slice `s[:k]` for `k >= 0`. */
  function Prefix<T>(s: seq<T>, k: nat): (r: seq<T>)
    ensures |r| == (if k <= |s| then k else |s|)
    ensures forall i :: 0 <= i < |r| ==> r[i] == s[i]
  {
    if k <= |s| then s[..k] else s
  }

  /** `k` zero records. */
  function Zeros<T>(k: nat, zero: T): (r: seq<T>)
    ensures |r| == k && forall i :: 0 <= i < k ==> r[i] == zero
  {
    seq(k, _ => zero)
  }

  /** How often `f` occurs in `names`. */
  function Count(names: seq<string>, f: string): nat
  {
    if names == [] then 0 else (if names[0] == f then 1 else 0) + Count(names[1..], f)
  }

  /** How many zero records the import loop appends to `f`: `pad` for each occurrence of `f` in `names`. */
  function Padding(names: seq<string>, f: string, pad: nat): nat
  {
    if names == [] then 0 else (if names[0] == f then pad else 0) + Padding(names[1..], f, pad)
  }

  lemma {:induction false} PaddingIsProduct(names: seq<string>, f: string, pad: nat)
    ensures Padding(names, f, pad) == pad * Count(names, f)
    decreases |names|
  {
    if names != [] {
      PaddingIsProduct(names[1..], f, pad);
      if names[0] == f {
        assert pad * Count(names, f) == pad + pad * Count(names[1..], f);
      }
    }
  }

  lemma {:induction false} CountNoDup(names: seq<string>, f: string)
    requires NoDup(names)
    ensures Count(names, f) == (if f in names then 1 else 0)
    decreases |names|
  {
    if names != [] {
      var rest := names[1..];
      assert NoDup(rest) by {
        forall i, j | 0 <= i < j < |rest| ensures rest[i] != rest[j] {
          assert rest[i] == names[i + 1] && rest[j] == names[j + 1];
        }
      }
      assert names[0] !in rest by {
        forall k | 0 <= k < |rest| ensures rest[k] != names[0] {
          assert rest[k] == names[k + 1];
        }
      }
      CountNoDup(rest, f);
      assert f in names <==> f == names[0] || f in rest;
    }
  }

  /** The padding of a field depends only on the registry, the name and the block size `capacity - size`. */
  lemma SamePadding(names: seq<string>, names': seq<string>, f: string, c: int, k: int, c': int, k': int)
    requires names == names' && c == c' && k == k' && k <= c
    ensures Padding(names, f, c - k) == Padding(names', f, c' - k')
  {
  }

  /** With distinct names every registered field is padded exactly once. */
  lemma {:induction false} PaddingNoDup(names: seq<string>, f: string, pad: nat)
    requires NoDup(names) && f in names
    ensures Padding(names, f, pad) == pad
  {
    CountNoDup(names, f);
    PaddingIsProduct(names, f, pad);
  }

  lemma {:induction false} CountPositive(names: seq<string>, f: string)
    ensures f in names <==> Count(names, f) > 0
    decreases |names|
  {
    if names != [] {
      CountPositive(names[1..], f);
      assert f in names <==> f == names[0] || f in names[1..];
    }
  }

  /**
   * The export loop over registered names: each listed field is cut to its
   * first `size` rows. A name listed twice is cut twice, which changes
   * nothing more.
   */
  function TruncateAll<T>(arrays: map<string, seq<T>>, names: seq<string>, size: nat): (r: map<string, seq<T>>)
    requires forall f :: f in names ==> f in arrays
    ensures r.Keys == arrays.Keys
    ensures forall f :: f in arrays ==> r[f] == if f in names then Prefix(arrays[f], size) else arrays[f]
    decreases |names|
  {
    if names == [] then arrays
    else
      var f := names[0];
      var r := TruncateAll(arrays[f := Prefix(arrays[f], size)], names[1..], size);
      assert Prefix(Prefix(arrays[f], size), size) == Prefix(arrays[f], size);
      assert forall g :: g in names <==> g == f || g in names[1..];
      r
  }

  /**
   * The import loop over registered names: each listed field gets `pad`
   * zero records appended, once per occurrence of its name. A name whose
   * descriptor or rows are missing raises.
   */
  function PadAll<T>(arrays: map<string, seq<T>>, specs: map<string, FieldSpec<T>>, names: seq<string>, pad: nat, zero: T): (r: Result<map<string, seq<T>>, Error>)
    ensures r.Success? ==> r.value.Keys == arrays.Keys
    ensures r.Success? ==> forall f :: f in arrays ==> r.value[f] == arrays[f] + Zeros(Padding(names, f, pad), zero)
    decreases |names|
  {
    if names == [] then
      assert forall f :: f in arrays ==> arrays[f] + Zeros(0, zero) == arrays[f];
      Success(arrays)
    else
      var f := names[0];
      if f !in specs || f !in arrays then Failure(MissingField(f))
      else
        var r := PadAll(arrays[f := arrays[f] + Zeros(pad, zero)], specs, names[1..], pad, zero);
        if r.Success? then
          forall g | g in arrays ensures r.value[g] == arrays[g] + Zeros(Padding(names, g, pad), zero) {
            if g == f { ZerosConcat(pad, Padding(names[1..], g, pad), zero); }
          }
          r
        else r
  }

  /** The import loop succeeds exactly when every listed name has a descriptor and rows. */
  lemma {:induction false} PadAllSucceeds<T>(arrays: map<string, seq<T>>, specs: map<string, FieldSpec<T>>, names: seq<string>, pad: nat, zero: T)
    ensures PadAll(arrays, specs, names, pad, zero).Success? <==> forall f :: f in names ==> f in specs && f in arrays
    decreases |names|
  {
    if names != [] {
      var f := names[0];
      if f in specs && f in arrays {
        var arrays' := arrays[f := arrays[f] + Zeros(pad, zero)];
        PadAllSucceeds(arrays', specs, names[1..], pad, zero);
        assert arrays'.Keys == arrays.Keys;
        assert forall g :: g in names <==> g == f || g in names[1..];
      }
    }
  }

  /** When the import loop raises, it names a listed field that lacks a descriptor or rows. */
  lemma {:induction false} PadAllNamesMissing<T>(arrays: map<string, seq<T>>, specs: map<string, FieldSpec<T>>, names: seq<string>, pad: nat, zero: T)
    requires PadAll(arrays, specs, names, pad, zero).Failure?
    ensures exists f :: f in names && (f !in specs || f !in arrays) && PadAll(arrays, specs, names, pad, zero).error == MissingField(f)
    decreases |names|
  {
    var f := names[0];
    if f in specs && f in arrays {
      var arrays' := arrays[f := arrays[f] + Zeros(pad, zero)];
      PadAllNamesMissing(arrays', specs, names[1..], pad, zero);
      var g :| g in names[1..] && (g !in specs || g !in arrays') && PadAll(arrays', specs, names[1..], pad, zero).error == MissingField(g);
      assert g in names;
    }
  }

  lemma ZerosConcat<T>(a: nat, b: nat, zero: T)
    ensures Zeros(a, zero) + Zeros(b, zero) == Zeros(a + b, zero)
  {
  }

  /** The state a pool exports: the scalars and registry verbatim, and every field cut to its first `size` rows unless the pool is full. */
  function Export<T>(p: Pool<T>): (s: Snapshot<T>)
    requires Valid(p)
    ensures s.capacity == p.capacity && s.pointer == p.pointer && s.size == p.size
    ensures s.fieldNames == p.fieldNames && s.specs == p.specs && s.arrays.Keys == p.store.Keys
    ensures forall f :: f in s.arrays ==>
      (|s.arrays[f]| == p.size && forall i :: 0 <= i < p.size ==> s.arrays[f][i] == p.store[f][i])
  {
    Snapshot(p.capacity, p.pointer, p.size, p.fieldNames, p.specs,
      if p.size < p.capacity then TruncateAll(p.store, p.fieldNames, p.size) else p.store)
  }

  /** Rebuilds a pool from a state, padding every listed field with `capacity - size` zero records when the state is not full. */
  function Import<T>(s: Snapshot<T>, zero: T): (r: Result<Pool<T>, Error>)
    ensures r.Success? ==> r.value.capacity == s.capacity && r.value.pointer == s.pointer && r.value.size == s.size
    ensures r.Success? ==> r.value.fieldNames == s.fieldNames && r.value.specs == s.specs && r.value.store.Keys == s.arrays.Keys
    ensures r.Success? ==> forall f :: f in s.arrays ==>
      && f in r.value.store
      && |r.value.store[f]| == |s.arrays[f]| + (if s.size < s.capacity then Padding(s.fieldNames, f, s.capacity - s.size) else 0)
      && (forall i :: 0 <= i < |s.arrays[f]| ==> r.value.store[f][i] == s.arrays[f][i])
      && (forall i :: |s.arrays[f]| <= i < |r.value.store[f]| ==> r.value.store[f][i] == zero)
  {
    if s.size < s.capacity then
      match PadAll(s.arrays, s.specs, s.fieldNames, s.capacity - s.size, zero)
      case Failure(e) => Failure(e)
      case Success(arrays) => Success(Pool(s.capacity, s.pointer, s.size, s.fieldNames, s.specs, arrays))
    else
      Success(Pool(s.capacity, s.pointer, s.size, s.fieldNames, s.specs, s.arrays))
  }

  /** Import succeeds exactly when the state is full or every registered name has rows and a descriptor. */
  lemma ImportSucceeds<T>(s: Snapshot<T>, zero: T)
    ensures Import(s, zero).Success? <==>
      s.size >= s.capacity || forall f :: f in s.fieldNames ==> f in s.arrays && f in s.specs
  {
    if s.size < s.capacity {
      PadAllSucceeds(s.arrays, s.specs, s.fieldNames, s.capacity - s.size, zero);
    }
  }

  /** When import raises, it names a registered field that lacks rows or a descriptor. */
  lemma ImportNamesMissing<T>(s: Snapshot<T>, zero: T)
    requires Import(s, zero).Failure?
    ensures exists f :: f in s.fieldNames && (f !in s.arrays || f !in s.specs) && Import(s, zero).error == MissingField(f)
  {
    PadAllNamesMissing(s.arrays, s.specs, s.fieldNames, s.capacity - s.size, zero);
  }

  // ---------------------------------------------------------------- round trip

  /**
   * `s` is a state exported from `p`: the counters and registry verbatim,
   * and for every field exactly its first `size` rows.
   */
  ghost predicate Exported<T>(p: Pool<T>, s: Snapshot<T>)
    requires Valid(p)
  {
    && s.capacity == p.capacity && s.pointer == p.pointer && s.size == p.size
    && s.fieldNames == p.fieldNames && s.specs == p.specs && s.arrays.Keys == p.store.Keys
    && forall f :: f in s.arrays ==>
         |s.arrays[f]| == p.size && forall i :: 0 <= i < p.size ==> s.arrays[f][i] == p.store[f][i]
  }

  lemma ExportIsExported<T>(p: Pool<T>)
    requires Valid(p)
    ensures Exported(p, Export(p))
  {
  }

  /** An exported state always imports: every registered name has rows and a descriptor. */
  lemma ExportedImports<T>(p: Pool<T>, s: Snapshot<T>, zero: T)
    requires Valid(p) && Exported(p, s)
    ensures Import(s, zero).Success?
  {
    ImportSucceeds(s, zero);
  }

  /** Importing an exported state restores the counters and the registry and keeps rows `[0, size)` of every field. */
  lemma ImportedRows<T>(p: Pool<T>, s: Snapshot<T>, zero: T)
    requires Valid(p) && Exported(p, s)
    ensures Import(s, zero).Success?
    ensures var q := Import(s, zero).value;
      && q.capacity == p.capacity && q.pointer == p.pointer && q.size == p.size
      && q.fieldNames == p.fieldNames && q.specs == p.specs && q.store.Keys == p.store.Keys
      && forall f, i :: f in p.store && 0 <= i < p.size ==> q.store[f][i] == p.store[f][i]
  {
    ExportedImports(p, s, zero);
  }

  /** A full pool's exported state imports back to the very same pool. */
  lemma ImportedFull<T>(p: Pool<T>, s: Snapshot<T>, zero: T)
    requires Valid(p) && Exported(p, s) && p.size == p.capacity
    ensures Import(s, zero) == Success(p)
  {
    assert s.arrays == p.store by {
      forall f | f in s.arrays ensures s.arrays[f] == p.store[f] {
        assert |s.arrays[f]| == |p.store[f]|;
      }
    }
  }

  /**
   * Importing what a pool exports restores the counters and the registry
   * and keeps rows `[0, size)` of every field; a full pool comes back
   * unchanged.
   */
  lemma RoundTrip<T>(p: Pool<T>, zero: T)
    requires Valid(p)
    ensures Import(Export(p), zero).Success?
    ensures var q := Import(Export(p), zero).value;
      && q.capacity == p.capacity && q.pointer == p.pointer && q.size == p.size
      && q.fieldNames == p.fieldNames && q.specs == p.specs && q.store.Keys == p.store.Keys
      && forall f, i :: f in p.store && 0 <= i < p.size ==> q.store[f][i] == p.store[f][i]
    ensures p.size == p.capacity ==> Import(Export(p), zero) == Success(p)
  {
    ExportIsExported(p);
    ImportedRows(p, Export(p), zero);
    if p.size == p.capacity {
      ImportedFull(p, Export(p), zero);
    }
  }

  /** While the pool has not wrapped, a field comes back with its `size` kept rows and one block of `capacity - size` zero records per occurrence of its name. */
  lemma ImportedLength<T>(p: Pool<T>, s: Snapshot<T>, zero: T, f: string)
    requires Valid(p) && Exported(p, s) && p.size < p.capacity && f in p.store
    ensures Import(s, zero).Success?
    ensures var q := Import(s, zero).value;
      f in q.store && |q.store[f]| == p.size + Padding(p.fieldNames, f, p.capacity - p.size)
  {
    ExportedImports(p, s, zero);
    ImportLength(s, zero, f, p.size, p.fieldNames, p.capacity);
  }

  /** The length of a padded field, with the snapshot's counters passed in as plain values. */
  lemma ImportLength<T>(s: Snapshot<T>, zero: T, f: string, n: nat, names: seq<string>, cap: int)
    requires Import(s, zero).Success? && s.size < s.capacity && f in s.arrays
    requires |s.arrays[f]| == n && s.fieldNames == names && s.capacity == cap && s.size == n
    ensures f in Import(s, zero).value.store
    ensures |Import(s, zero).value.store[f]| == n + Padding(names, f, cap - n)
  {
    SamePadding(s.fieldNames, names, f, s.capacity, s.size, cap, n);
  }

  /**
   * With distinct field names the restored pool is a valid pool again: it
   * agrees with the exported one at every valid position, and the padded
   * tail holds zero records.
   */
  lemma RoundTripDistinct<T>(p: Pool<T>, s: Snapshot<T>, zero: T)
    requires Valid(p) && Exported(p, s) && NoDup(p.fieldNames)
    ensures Import(s, zero).Success?
    ensures var q := Import(s, zero).value;
      && Valid(q)
      && (forall f, i :: f in p.store && InWindow(p, i) ==> q.store[f][i] == p.store[f][i])
      && (forall f, i :: f in p.store && p.size <= i < p.capacity ==> q.store[f][i] == zero)
  {
    ImportedRows(p, s, zero);
    var q := Import(s, zero).value;
    if p.size < p.capacity {
      forall f | f in q.store ensures |q.store[f]| == q.capacity {
        ImportedLength(p, s, zero, f);
        PaddingNoDup(p.fieldNames, f, p.capacity - p.size);
      }
      forall f, i | f in p.store && InWindow(p, i) ensures q.store[f][i] == p.store[f][i] {
        WindowIsPrefix(p, i);
      }
    } else {
      ImportedFull(p, s, zero);
    }
  }

  /**
   * A field registered twice is padded twice on import, so while the pool
   * has not wrapped its restored storage is longer than the capacity and the
   * restored pool breaks the storage-length invariant.
   */
  lemma ReRegisteredFieldOverPadded<T>(p: Pool<T>, s: Snapshot<T>, zero: T, f: string)
    requires Valid(p) && Exported(p, s) && p.size < p.capacity && Count(p.fieldNames, f) >= 2
    ensures Import(s, zero).Success?
    ensures var q := Import(s, zero).value;
      && f in q.store
      && |q.store[f]| == p.size + (p.capacity - p.size) * Count(p.fieldNames, f)
      && |q.store[f]| > p.capacity
      && !Valid(q)
  {
    CountPositive(p.fieldNames, f);
    ImportedLength(p, s, zero, f);
    PaddingIsProduct(p.fieldNames, f, p.capacity - p.size);
    MoreThanOnce(p.capacity - p.size, Count(p.fieldNames, f));
  }

  lemma MoreThanOnce(pad: nat, c: nat)
    requires pad > 0 && c >= 2
    ensures pad * c > pad
  {
    assert pad * c == pad + pad * (c - 1);
  }

  /** Two valid pools with the same counters and registry that agree on every valid position. */
  ghost predicate SameOnWindow<T>(p: Pool<T>, q: Pool<T>)
    requires Valid(p) && Valid(q)
  {
    && q.capacity == p.capacity && q.pointer == p.pointer && q.size == p.size
    && q.fieldNames == p.fieldNames && q.specs == p.specs
    && forall f, i :: f in p.store && InWindow(p, i) ==> q.store[f][i] == p.store[f][i]
  }

  lemma GatherAgrees<T>(p: Pool<T>, q: Pool<T>, idx: seq<int>, names: seq<string>)
    requires Valid(p) && Valid(q) && SameOnWindow(p, q)
    requires forall f :: f in names ==> f in p.fieldNames
    requires forall i :: 0 <= i < |idx| ==> InWindow(p, idx[i] % p.capacity)
    ensures Gather(p, idx, names) == Gather(q, idx, names)
  {
    var a, b := Gather(p, idx, names), Gather(q, idx, names);
    if a.Success? {
      assert a.value.columns.Keys == b.value.columns.Keys;
      forall f | f in a.value.columns ensures a.value.columns[f] == b.value.columns[f] {
        assert |a.value.columns[f]| == |b.value.columns[f]|;
      }
      assert a.value.columns == b.value.columns;
    }
  }

  /**
   * Reads through the corrected bounds check cannot tell apart two pools
   * that agree on their valid positions.
   */
  lemma CheckedReadsAgree<T>(p: Pool<T>, q: Pool<T>, idx: seq<int>, filter: Option<string -> bool>)
    requires Valid(p) && Valid(q) && SameOnWindow(p, q)
    ensures BatchByIndicesChecked(p, idx, filter) == BatchByIndicesChecked(q, idx, filter)
  {
    CheckedRejectsOutsideWindow(p, idx, filter);
    CheckedRejectsOutsideWindow(q, idx, filter);
    if forall i :: 0 <= i < |idx| ==> InWindow(p, idx[i] % p.capacity) {
      GatherAgrees(p, q, idx, BatchKeys(p.fieldNames, filter));
    }
  }

  /** Pools that agree on their valid positions return the same last-`n` batch. */
  lemma LastNReadsAgree<T>(p: Pool<T>, q: Pool<T>, n: nat, filter: Option<string -> bool>)
    requires Valid(p) && Valid(q) && SameOnWindow(p, q)
    ensures LastNBatch(q, n, filter) == LastNBatch(p, n, filter)
  {
    var idx := LastNIndices(p, n);
    LastNIndicesOfCounters(p, q, n);
    forall i | 0 <= i < |idx| ensures InWindow(p, idx[i] % p.capacity) {
      ModSmall(idx[i], p.capacity);
    }
    GatherAgrees(p, q, idx, BatchKeys(p.fieldNames, filter));
  }

  /**
   * An imported pool answers reads as the exported one did: the same
   * last-`n` batches, and the same result for every read through the
   * corrected bounds check.
   */
  lemma RestoredPoolReadsAlike<T>(p: Pool<T>, s: Snapshot<T>, zero: T, n: nat, idx: seq<int>, filter: Option<string -> bool>)
    requires Valid(p) && Exported(p, s) && NoDup(p.fieldNames)
    ensures Import(s, zero).Success?
    ensures var q := Import(s, zero).value;
      && Valid(q)
      && LastNBatch(q, n, filter) == LastNBatch(p, n, filter)
      && BatchByIndicesChecked(q, idx, filter) == BatchByIndicesChecked(p, idx, filter)
  {
    ImportedRows(p, s, zero);
    RoundTripDistinct(p, s, zero);
    var q := Import(s, zero).value;
    assert SameOnWindow(p, q);
    LastNReadsAgree(p, q, n, filter);
    CheckedReadsAgree(p, q, idx, filter);
  }
}
